=== FILE: README.md ===
# Sudoku backtracking solver

This is a Dafny model of the solver in `sudoku.py`, a chronological
backtracking Sudoku solver over a 9x9 integer grid in which 0 marks an empty
cell. It models five routines:

- `select_unassigned_variable` returns the first empty cell in row-major
  order.
- `order_domain_values` returns the digits 1..9 in ascending order.
- `is_consistent` runs the row, column and 3x3 block scans for a candidate
  digit.
- `solve_sudoku` is the recursive search. It writes a digit into the grid,
  recurses, and writes 0 back when the recursion fails.
- `goal_test` is the pre-check that `main` runs once. If it fails, `main`
  reports "FAILURE" without searching.

The model has two layers. The functional layer is in `wrappers.dfy`,
`grid.dfy`, `consistency.dfy`, `selection.dfy`, `search.dfy` and
`gate.dfy`. The board is a `seq<seq<int>>`. The search is a function that
takes the board as it stands and returns the board as it leaves it (`Outcome(solved, board)`).
This makes the source's in-place write and exact undo explicit. The search
terminates because every recursive call sees one empty cell fewer
(`ZeroCount`).

The imperative layer is `in_place.dfy`. It runs the same routines on one
`array2<int>` mutated in place, with the loops and early returns of the
source. The one exception is the candidate loop `for value in
order_domain_values()`, which is written as recursion on the candidate index
(`TryValuesInPlace`). Each method is proved to compute what the functional
model computes.

`scenarios.dfy` holds concrete boards:
- a complete grid without duplicates;
- the empty puzzle;
- a board whose only digit is a 5 at (4, 4) (`LoneFive`);
- a puzzle whose only givens are two 5s side by side in the first row
  (`TwoFivesInARow`);
- two puzzles that show the two departures listed under "## Findings".

`is_consistent` is modelled as written. The block scan compares the offsets
0..2 with the target's absolute row and column. `IsConsistentIff` states
what this actually decides. A block cell is skipped only when an offset
equals a coordinate below 3. Such a cell lies in the target's own row or
column (`SkippedBlockCellsShareALine`). Unless it is the target itself, the
row or column scan has already examined it. None of the three scans examines
the target, which is no peer. In rows 3..8 and columns 3..8 nothing is skipped, so
the target is compared with itself. The corrected scan,
`IsConsistentFixed`, is defined next to the scan as written.

The comment in `main` (sudoku.py:125-127) says the pre-check rules out
puzzles whose given digits already repeat. The code of `goal_test` instead
returns True as soon as one given cell passes the check. The comment above
`goal_test` (sudoku.py:81-82) describes something else again: a test that
the entire puzzle is solved. The model follows the code (`Gate.GoalTest`).
The duplicate-givens pre-check that the comment in `main` describes is
`Gate.Validate`, and `Gate.Solve` is the entry point that uses it.

## Model

| member | source | states |
|---|---|---|
| Selection.SelectUnassigned | sudoku.py:43-48 | The selector returns a cell that holds 0 and is preceded in row-major order only by non-empty cells. It returns no cell (False) exactly when the board has no empty cell. |
| Selection.SelectUnassignedIsFirstZero | sudoku.py:43-48 | The selector's answer is exactly the cell that is empty and has every earlier cell filled, so it is determined by the board alone. |
| Selection.OrderDomainValues | sudoku.py:55-56 | The candidates are nine strictly ascending values, and a value is among them exactly when it is a digit 1..9. |
| Selection.DomainValueAt | sudoku.py:55-56 | The i-th candidate the loop tries is the digit i + 1. |
| Consistency.IsConsistentIff | sudoku.py:60-79 | The check answers True exactly when no row, column or block peer holds the value, except at a target in rows 3..8 and columns 3..8 that already holds the value: there it answers False. |
| Consistency.SkippedBlockCellsShareALine | sudoku.py:72-76 | A block cell that the scan skips, because an offset equals the target's row or column, lies in the target's row or column. Unless it is the target itself, the row or column scan has already examined it. The target is examined by none of the three scans, and it is no peer. |
| Consistency.ConsistentAtEmptyCell | sudoku.py:60-79 | When the target does not hold the value, which includes every call the search makes on an empty cell, the check is exactly "no peer holds the value". |
| Consistency.SelfClash | sudoku.py:72-78 | In rows 3..8 and columns 3..8 a cell is always judged inconsistent with its own digit, because the block scan does not skip the target. |
| Consistency.IsConsistentFixedIff | sudoku.py:72-78 | The block scan that skips exactly the target cell makes the check equivalent to "no peer holds the value", whatever the target holds. |
| Consistency.FixedAgreesAtEmptyCell | sudoku.py:72-78 | At a target that does not hold the value, the check as written and the corrected check agree. |
| Scenarios.BlockScanSelfCompare | sudoku.py:74-78 | On a board whose only digit is a 5 at (4, 4), no peer holds 5, yet the check reports a clash for 5 there. The corrected check accepts it. |
| Backtracking.Search | sudoku.py:5-38 | The search returns a well-formed board. On failure the board is exactly the one it was given: the undo is exact. |
| Backtracking.TryValues | sudoku.py:17-38 | The candidate loop at an empty cell returns a well-formed board. When no candidate leads to a solution, the board is exactly the one it was given. |
| Backtracking.TryValuesStep | sudoku.py:17-33 | Candidate i + 1 ends the loop exactly when it passes the check and the recursive search succeeds. Otherwise the loop continues from the same board, because the write is undone exactly. |
| Backtracking.SearchFillsKeepingGivens | sudoku.py:11-28 | A successful search leaves no empty cell, and every cell that was non-empty on entry keeps its digit. |
| Backtracking.TryValuesFillsKeepingGivens | sudoku.py:17-33 | The same for the candidate loop: on success the board is filled and keeps every non-empty cell of its input. |
| Backtracking.SearchFilled | sudoku.py:11-12 | On a board with no empty cell, the search succeeds and returns that board unchanged. |
| Backtracking.SearchKeepsScannedPrefix | sudoku.py:15-33 | The cells scanned before the selected empty cell are never changed, whatever the outcome. |
| Backtracking.SearchWritesClearDigits | sudoku.py:17-23 | On success, every cell that was empty on entry holds a digit that no row, column or block peer holds. |
| Backtracking.TryValuesWritesClearDigits | sudoku.py:17-28 | The same for the candidate loop at an empty cell. |
| Backtracking.WriteKeepsClear | sudoku.py:20-23 | A digit that passed the check at an empty cell stays free of clashes through every later write of a successful recursion. |
| Backtracking.ClearFillingHasNoDuplicates | sudoku.py:17-28 | Givens without duplicates plus written cells without clashes give a board without duplicates. |
| Backtracking.SearchSound | sudoku.py:11-38 | If the given cells have no duplicate, a successful search returns a solution of the puzzle. |
| Backtracking.SearchComplete | sudoku.py:17-38 | If the puzzle has any solution, the search does not return "FAILURE". |
| Backtracking.TryValuesComplete | sudoku.py:17-38 | If a solution puts a digit above i at the selected cell, the loop from candidate i onward succeeds. |
| Backtracking.OneEmptyCell | sudoku.py:11-38 | On a board whose only empty cell admits exactly one digit d, the search succeeds and writes d there. |
| Gate.GoalTestIff | sudoku.py:81-89 | The pre-check is True exactly when some given cell outside rows 3..8 x columns 3..8 has no peer holding its digit. |
| Gate.GoalTestEmptyBoard | sudoku.py:83-89 | An all-empty grid fails the pre-check. |
| Gate.GoalTestAllClash | sudoku.py:83-89 | A grid in which every given digit is repeated by a peer fails the pre-check. |
| Gate.Main | sudoku.py:128-131 | If the pre-check fails, `main` reports "FAILURE" without searching. Any board it reports is complete and keeps every given. |
| Gate.MainComplete | sudoku.py:128-131 | A puzzle that passes the pre-check and has a solution gets a reported board. |
| Gate.MainSound | sudoku.py:128-131 | The digits `main` writes never clash. When the givens have no duplicate, the reported board is a solution. |
| Gate.ValidateIff | sudoku.py:125-127 | The duplicate-givens pre-check the comment in `main` describes, run on every given cell with the corrected block scan, accepts exactly the boards without duplicates. |
| Gate.DuplicateGivensHaveNoSolution | sudoku.py:125-129 | No board solves a puzzle whose givens repeat a digit. |
| Gate.FailedSearchHasNoSolution | sudoku.py:36-38 | When the search returns "FAILURE", the puzzle has no solution. |
| Gate.Solve | sudoku.py:125-131 | The corrected entry point reports a board only if it is a solution, and reports "FAILURE" only if no solution exists. |
| Scenarios.EmptyBoardSolvedWithOneFirst | sudoku.py:17-23 | The search solves the empty puzzle and writes 1, the smallest digit, into the first cell. `main` reports no solution for the empty puzzle, because the pre-check finds no given. |
| Scenarios.TwoFivesHaveNoSolution | sudoku.py:125-131 | Two 5s side by side in one row: both `main` and the corrected entry point report no solution. |
| Scenarios.GoalTestAdmitsRepeat | sudoku.py:83-89 | A full grid that repeats a digit in row 8 passes the pre-check, and `main` reports that grid itself as the solution. The corrected entry point reports "FAILURE". |
| Scenarios.GoalTestRejectsSolvable | sudoku.py:72-78 | A solvable puzzle whose only given is a 9 at (4, 4) fails the pre-check, so `main` reports no solution. The corrected entry point solves it. |
| InPlace.SelectUnassignedVariable | sudoku.py:43-48 | The nested loops with an early return find a cell exactly when the functional selector does, and find the same cell. |
| InPlace.IsConsistentInPlace | sudoku.py:60-79 | The three scans over the array, each with an early return, answer what the functional check answers. |
| InPlace.ScanRow | sudoku.py:61-65 | The row loop answers False exactly when another cell of the row holds the value. |
| InPlace.ScanColumn | sudoku.py:66-70 | The column loop answers False exactly when another cell of the column holds the value. |
| InPlace.ScanBlock | sudoku.py:71-78 | The block loops, with their offset-versus-absolute skip, answer what the block scan as written answers. |
| InPlace.GoalTestInPlace | sudoku.py:83-89 | The pre-check loops answer what the functional pre-check answers. |
| InPlace.SolveInPlace | sudoku.py:5-38 | The in-place search reports the functional search's outcome and leaves the array holding the functional search's board: the solution, or the input restored cell for cell. |
| InPlace.TryValuesInPlace | sudoku.py:17-38 | The in-place candidate loop agrees with the functional candidate loop in outcome and final board. |
| InPlace.WriteAndRecurse | sudoku.py:21-33 | Write, recurse, and on failure write 0 back. The array ends up either holding the recursion's solution or exactly as it was. |
| InPlace.MainInPlace | sudoku.py:128-131 | The gated search on the array agrees with `Main`. On "FAILURE" the array is left as it was given. |

## Left out

- Argument parsing, logging, reading the puzzle file, `print_sudoku` and the printed messages (sudoku.py:91-120, 133-137) are I/O. The puzzle is the model's input, and the reported board is its output.
- Timing with `timeit` (sudoku.py:123, 140-141) measures wall-clock time and has no logical content.
- Malformed input is not modelled: rows of the wrong length, too few rows, values outside 0..9, or non-integers. Every operation requires a 9x9 board holding 0..9 (`WellFormed`, or `Digits` for the array).
- The identity tests `is 0` and `is not 0` (sudoku.py:46, 86) are modelled as integer equality.
- `solve_sudoku` returns either the string "FAILURE" or the board itself (sudoku.py:27, 38). The model replaces this mix with the `Outcome` pair, whose flag `solved` marks success, and `main`'s "FAILURE" with `None`.
- The second call to `select_unassigned_variable` (sudoku.py:15) is not modelled separately. The selector only reads the board, so that call returns the same cell as the test on line 11.
- The claim that the first solution found is the lexicographically least one is not stated. The model proves only that the first cell receives the smallest digit that leads to a solution, and only for the empty puzzle (`Scenarios.EmptyBoardSolvedWithOneFirst`).

## Findings

| source | as written | input that shows it | evidently intended | confidence | as-written member | corrected member |
|---|---|---|---|---|---|---|
| sudoku.py:76 | The block scan skips a cell when the offset `row` (0..2) equals the absolute target row, or the offset `col` equals the absolute target column. For a target in rows 3..8 and columns 3..8 nothing is skipped, so the target is compared with itself. | A board whose only digit is a 5 at (4, 4), checked with value 5: the check reports a clash. End to end, the puzzle whose only given is a 9 at (4, 4) is solvable, yet `main` reports "No solution found". | Skip exactly the target cell: `sq_start_row + row != variable[0] or sq_start_col + col != variable[1]`. | high; not executed | Scenarios.BlockScanSelfCompare, Scenarios.GoalTestRejectsSolvable | Consistency.IsConsistentFixedIff |
| sudoku.py:83-89 | `goal_test` returns True as soon as ONE given cell passes the check. The comment in `main` at lines 125-127 describes a pre-check that no given digit repeats. The comment above `goal_test` at lines 81-82 describes a test that the whole puzzle is solved instead, which is not what `main` needs before a search. | The complete pattern grid with its last cell changed to the digit on its left, so row 8 holds that digit twice. The pre-check passes, and `main` prints this grid as the solution. In the other direction, the empty puzzle is solvable, yet `main` reports "No solution found" because the pre-check finds no given. | Require every given cell to pass the corrected check. | high; not executed | Scenarios.GoalTestAdmitsRepeat, Scenarios.EmptyBoardSolvedWithOneFirst | Gate.ValidateIff, Gate.Solve |

=== FILE: consistency.dfy ===
/** The consistency check `is_consistent(assignment, variable, value)`:
    three scans (row, column, block) that each answer False as soon as they
    meet `value` in a cell they do not skip. It only reads the board. */
module Consistency {
  import opened Grid

  /** The row scan: every cell of row r other than column c differs from v. */
  predicate RowClear(g: Board, r: int, c: int, v: int)
    requires WellFormed(g) && InRange(r, c)
  {
    forall col :: 0 <= col < 9 && col != c ==> g[r][col] != v
  }

  /** The column scan: every cell of column c other than row r differs from v. */
  predicate ColumnClear(g: Board, r: int, c: int, v: int)
    requires WellFormed(g) && InRange(r, c)
  {
    forall row :: 0 <= row < 9 && row != r ==> g[row][c] != v
  }

  /** The cell at offset (i, j) inside the block that contains (r, c); the
      block origin is (r - r % 3, c - c % 3). */
  function BlockCell(g: Board, r: int, c: int, i: int, j: int): int
    requires WellFormed(g) && InRange(r, c) && 0 <= i < 3 && 0 <= j < 3
  {
    g[r - r % 3 + i][c - c % 3 + j]
  }

  /** The block scan as written: the offsets i and j (0..2) are compared with
      the ABSOLUTE row r and column c, and a block cell is examined only when
      both differ. */
  predicate BlockClear(g: Board, r: int, c: int, v: int)
    requires WellFormed(g) && InRange(r, c)
  {
    forall i, j :: 0 <= i < 3 && 0 <= j < 3 && i != r && j != c ==> BlockCell(g, r, c, i, j) != v
  }

  /** `is_consistent` as written: true when none of the three scans meets v. */
  predicate IsConsistent(g: Board, r: int, c: int, v: int)
    requires WellFormed(g) && InRange(r, c)
  {
    RowClear(g, r, c, v) && ColumnClear(g, r, c, v) && BlockClear(g, r, c, v)
  }

  /** A block cell the scan skips lies in the target's row or in its column:
      an offset can only equal an absolute coordinate below 3, where the
      block origin is 0. Unless it is the target itself, the row or column
      scan examines it; the target is examined by none of the three scans. */
  lemma SkippedBlockCellsShareALine(r: int, c: int, i: int, j: int)
    requires InRange(r, c) && 0 <= i < 3 && 0 <= j < 3
    requires i == r || j == c
    ensures r - r % 3 + i == r || c - c % 3 + j == c
  {
  }

  /** What the check really decides: no peer holds v, and, when the target
      lies in rows 3..8 and columns 3..8, the target itself does not hold v
      either (there the block scan compares the target with itself). */
  lemma IsConsistentIff(g: Board, r: int, c: int, v: int)
    requires WellFormed(g) && InRange(r, c)
    ensures IsConsistent(g, r, c, v) <==>
              NoPeerHolds(g, r, c, v) && !(r >= 3 && c >= 3 && g[r][c] == v)
  {
    var sr, sc := r - r % 3, c - c % 3;
    if IsConsistent(g, r, c, v) {
      forall r2, c2 | 0 <= r2 < 9 && 0 <= c2 < 9 && Peer(r, c, r2, c2)
        ensures g[r2][c2] != v
      {
        if r2 == r {
          assert c2 != c;
        } else if c2 == c {
        } else {
          var i, j := r2 - sr, c2 - sc;
          assert 0 <= i < 3 && 0 <= j < 3;
          assert i != r && j != c;
          assert BlockCell(g, r, c, i, j) == g[r2][c2];
        }
      }
      if r >= 3 && c >= 3 {
        assert BlockCell(g, r, c, r % 3, c % 3) == g[r][c];
      }
    }
    if NoPeerHolds(g, r, c, v) && !(r >= 3 && c >= 3 && g[r][c] == v) {
      assert RowClear(g, r, c, v) by {
        forall col | 0 <= col < 9 && col != c ensures g[r][col] != v {
          assert Peer(r, c, r, col);
        }
      }
      assert ColumnClear(g, r, c, v) by {
        forall row | 0 <= row < 9 && row != r ensures g[row][c] != v {
          assert Peer(r, c, row, c);
        }
      }
      forall i, j | 0 <= i < 3 && 0 <= j < 3 && i != r && j != c
        ensures BlockCell(g, r, c, i, j) != v
      {
        var r2, c2 := sr + i, sc + j;
        if r2 == r && c2 == c {
          assert r >= 3 && c >= 3;
        } else {
          assert Peer(r, c, r2, c2);
        }
      }
    }
  }

  /** When the target does not hold v (in the search it is empty), the check
      is exactly "no peer holds v". */
  lemma ConsistentAtEmptyCell(g: Board, r: int, c: int, v: int)
    requires WellFormed(g) && InRange(r, c) && g[r][c] != v
    ensures IsConsistent(g, r, c, v) <==> NoPeerHolds(g, r, c, v)
  {
    IsConsistentIff(g, r, c, v);
  }

  /** In rows 3..8 and columns 3..8 a cell that already holds v is reported
      inconsistent with v, whatever the rest of the board holds. */
  lemma SelfClash(g: Board, r: int, c: int)
    requires WellFormed(g) && 3 <= r < 9 && 3 <= c < 9
    ensures !IsConsistent(g, r, c, g[r][c])
  {
    IsConsistentIff(g, r, c, g[r][c]);
  }

  /** The check with the block scan it evidently intends: skip exactly the
      target cell and examine the other eight. */
  predicate IsConsistentFixed(g: Board, r: int, c: int, v: int)
    requires WellFormed(g) && InRange(r, c)
  {
    && RowClear(g, r, c, v)
    && ColumnClear(g, r, c, v)
    && (forall i, j :: 0 <= i < 3 && 0 <= j < 3 && (r - r % 3 + i != r || c - c % 3 + j != c) ==>
          BlockCell(g, r, c, i, j) != v)
  }

  /** The corrected check is exactly "no peer holds v", whatever the target
      holds. */
  lemma IsConsistentFixedIff(g: Board, r: int, c: int, v: int)
    requires WellFormed(g) && InRange(r, c)
    ensures IsConsistentFixed(g, r, c, v) <==> NoPeerHolds(g, r, c, v)
  {
    var sr, sc := r - r % 3, c - c % 3;
    if IsConsistentFixed(g, r, c, v) {
      forall r2, c2 | 0 <= r2 < 9 && 0 <= c2 < 9 && Peer(r, c, r2, c2)
        ensures g[r2][c2] != v
      {
        if r2 != r && c2 != c {
          assert BlockCell(g, r, c, r2 - sr, c2 - sc) == g[r2][c2];
        }
      }
    }
    if NoPeerHolds(g, r, c, v) {
      assert RowClear(g, r, c, v) by {
        forall col | 0 <= col < 9 && col != c ensures g[r][col] != v {
          assert Peer(r, c, r, col);
        }
      }
      assert ColumnClear(g, r, c, v) by {
        forall row | 0 <= row < 9 && row != r ensures g[row][c] != v {
          assert Peer(r, c, row, c);
        }
      }
      forall i, j | 0 <= i < 3 && 0 <= j < 3 && (sr + i != r || sc + j != c)
        ensures BlockCell(g, r, c, i, j) != v
      {
        assert Peer(r, c, sr + i, sc + j);
      }
    }
  }

  /** The two checks agree wherever the target does not already hold v,
      which covers every call the search makes. */
  lemma FixedAgreesAtEmptyCell(g: Board, r: int, c: int, v: int)
    requires WellFormed(g) && InRange(r, c) && g[r][c] != v
    ensures IsConsistent(g, r, c, v) <==> IsConsistentFixed(g, r, c, v)
  {
    IsConsistentIff(g, r, c, v);
    IsConsistentFixedIff(g, r, c, v);
  }
}

=== FILE: gate.dfy ===
/** The pre-check `goal_test` and the decision in `main` that runs the search
    only when it passes, together with the validating entry point the
    pre-check evidently intends. */
module Gate {
  import opened Wrappers
  import opened Grid
  import opened Consistency
  import opened Backtracking

  /** `goal_test` as written: true as soon as ONE non-empty cell passes the
      consistency check with its own digit, false otherwise. */
  predicate GoalTest(g: Board)
    requires WellFormed(g)
  {
    exists r, c :: 0 <= r < 9 && 0 <= c < 9 && g[r][c] != 0 && IsConsistent(g, r, c, g[r][c])
  }

  /** What `goal_test` decides: some given cell outside rows 3..8 x columns
      3..8 has no peer holding its digit. Cells in rows 3..8 and columns
      3..8 never make it true, because there the check compares the cell
      with itself. */
  lemma GoalTestIff(g: Board)
    requires WellFormed(g)
    ensures GoalTest(g) <==>
              exists r, c :: 0 <= r < 9 && 0 <= c < 9 && g[r][c] != 0 && (r < 3 || c < 3)
                             && NoPeerHolds(g, r, c, g[r][c])
  {
    if GoalTest(g) {
      var r, c :| 0 <= r < 9 && 0 <= c < 9 && g[r][c] != 0 && IsConsistent(g, r, c, g[r][c]);
      IsConsistentIff(g, r, c, g[r][c]);
    }
    if exists r, c :: 0 <= r < 9 && 0 <= c < 9 && g[r][c] != 0 && (r < 3 || c < 3)
                      && NoPeerHolds(g, r, c, g[r][c]) {
      var r, c :| 0 <= r < 9 && 0 <= c < 9 && g[r][c] != 0 && (r < 3 || c < 3)
                  && NoPeerHolds(g, r, c, g[r][c]);
      IsConsistentIff(g, r, c, g[r][c]);
    }
  }

  /** An all-empty board fails the pre-check. */
  lemma GoalTestEmptyBoard(g: Board)
    requires WellFormed(g) && forall r, c :: 0 <= r < 9 && 0 <= c < 9 ==> g[r][c] == 0
    ensures !GoalTest(g)
  {
  }

  /** A board on which every given digit is repeated by one of its peers
      fails the pre-check. */
  lemma GoalTestAllClash(g: Board)
    requires WellFormed(g)
    requires forall r, c :: 0 <= r < 9 && 0 <= c < 9 && g[r][c] != 0 ==> !NoPeerHolds(g, r, c, g[r][c])
    ensures !GoalTest(g)
  {
    if GoalTest(g) {
      var r, c :| 0 <= r < 9 && 0 <= c < 9 && g[r][c] != 0 && IsConsistent(g, r, c, g[r][c]);
      IsConsistentIff(g, r, c, g[r][c]);
    }
  }

  /** The decision in `main`: "FAILURE" (None) when `goal_test` fails,
      otherwise whatever the search returns. */
  function Main(g: Board): (res: Option<Board>)
    requires WellFormed(g)
    ensures !GoalTest(g) ==> res.None?
    ensures res.Some? ==> WellFormed(res.value) && Filled(res.value) && Extends(res.value, g)
  {
    if !GoalTest(g) then None
    else
      var outcome := Search(g);
      SearchFillsKeepingGivens(g);
      if outcome.solved then Some(outcome.board) else None
  }

  /** A puzzle that passes the pre-check and has a solution is solved. */
  lemma MainComplete(g: Board, s: Board)
    requires WellFormed(g) && GoalTest(g) && IsSolutionOf(s, g)
    ensures Main(g).Some?
  {
    SearchComplete(g, s);
  }

  /** The digits `main` reports for the empty cells never clash; when the
      given cells have no duplicate, the reported board is a solution. */
  lemma MainSound(g: Board)
    requires WellFormed(g) && Main(g).Some?
    ensures WrittenCellsClear(g, Main(g).value)
    ensures NoDuplicates(g) ==> IsSolutionOf(Main(g).value, g)
  {
    SearchWritesClearDigits(g);
    if NoDuplicates(g) {
      SearchSound(g);
    }
  }

  /** The pre-check the comment in `main` describes: no given digit repeats,
      that is, EVERY given cell has no peer holding its digit under the
      corrected block scan. */
  predicate Validate(g: Board)
    requires WellFormed(g)
  {
    forall r, c :: 0 <= r < 9 && 0 <= c < 9 && g[r][c] != 0 ==> IsConsistentFixed(g, r, c, g[r][c])
  }

  /** The corrected pre-check accepts exactly the boards without duplicates. */
  lemma ValidateIff(g: Board)
    requires WellFormed(g)
    ensures Validate(g) <==> NoDuplicates(g)
  {
    forall r, c | 0 <= r < 9 && 0 <= c < 9 && g[r][c] != 0 {
      IsConsistentFixedIff(g, r, c, g[r][c]);
    }
  }

  /** No board solves a puzzle whose given cells repeat a digit: a solution
      keeps both givens, and they are peers holding the same digit. */
  lemma DuplicateGivensHaveNoSolution(g: Board)
    requires WellFormed(g) && !NoDuplicates(g)
    ensures forall s :: !IsSolutionOf(s, g)
  {
    var r, c :| 0 <= r < 9 && 0 <= c < 9 && g[r][c] != 0 && !NoPeerHolds(g, r, c, g[r][c]);
    var r2, c2 :| 0 <= r2 < 9 && 0 <= c2 < 9 && Peer(r, c, r2, c2) && g[r2][c2] == g[r][c];
  }

  /** When the search fails, no board solves the puzzle. */
  lemma FailedSearchHasNoSolution(g: Board)
    requires WellFormed(g) && !Search(g).solved
    ensures forall s :: !IsSolutionOf(s, g)
  {
    forall s ensures !IsSolutionOf(s, g) {
      if IsSolutionOf(s, g) {
        SearchComplete(g, s);
      }
    }
  }

  /** The entry point with the intended pre-check: Some(h) exactly when the
      puzzle has a solution, and then h is one. */
  function Solve(g: Board): (res: Option<Board>)
    requires WellFormed(g)
    ensures res.Some? ==> IsSolutionOf(res.value, g)
    ensures res.None? ==> forall s :: !IsSolutionOf(s, g)
  {
    ValidateIff(g);
    if !Validate(g) then
      DuplicateGivensHaveNoSolution(g);
      None
    else
      var outcome := Search(g);
      SearchSound(g);
      if outcome.solved then Some(outcome.board)
      else
        FailedSearchHasNoSolution(g);
        None
  }
}

=== FILE: grid.dfy ===
/** The 9x9 board of the solver and the vocabulary used to talk about it:
    cells, peers (cells sharing a row, a column or a 3x3 block), empty
    cells, and what a solution of a puzzle is. */
module Grid {

  /** Nine rows of nine integers; 0 is an empty cell, 1..9 a digit. */
  type Board = seq<seq<int>>

  /** A (row, column) position, as the selector returns it. */
  datatype Cell = Cell(row: int, col: int)

  predicate InRange(r: int, c: int) {
    0 <= r < 9 && 0 <= c < 9
  }

  /** Nine rows of nine cells, each holding 0..9. */
  predicate WellFormed(g: Board) {
    && |g| == 9
    && (forall r :: 0 <= r < 9 ==> |g[r]| == 9)
    && (forall r, c :: 0 <= r < 9 && 0 <= c < 9 ==> 0 <= g[r][c] <= 9)
  }

  /** Row-major order: cell p is scanned before cell q. */
  predicate Before(p: Cell, q: Cell) {
    p.row < q.row || (p.row == q.row && p.col < q.col)
  }

  /** (r2, c2) is a different cell than (r, c) and shares its row, its column
      or its 3x3 block. */
  predicate Peer(r: int, c: int, r2: int, c2: int) {
    && (r2 != r || c2 != c)
    && (r2 == r || c2 == c || (r2 / 3 == r / 3 && c2 / 3 == c / 3))
  }

  /** No peer of (r, c) holds the digit v. */
  predicate NoPeerHolds(g: Board, r: int, c: int, v: int)
    requires WellFormed(g)
  {
    forall r2, c2 :: 0 <= r2 < 9 && 0 <= c2 < 9 && Peer(r, c, r2, c2) ==> g[r2][c2] != v
  }

  /** No digit is repeated in any row, column or block. */
  predicate NoDuplicates(g: Board)
    requires WellFormed(g)
  {
    forall r, c :: 0 <= r < 9 && 0 <= c < 9 && g[r][c] != 0 ==> NoPeerHolds(g, r, c, g[r][c])
  }

  /** Every cell holds a digit. */
  predicate Filled(g: Board)
    requires WellFormed(g)
  {
    forall r, c :: 0 <= r < 9 && 0 <= c < 9 ==> g[r][c] != 0
  }

  /** h keeps every non-empty cell of g. */
  predicate Extends(h: Board, g: Board)
    requires WellFormed(h) && WellFormed(g)
  {
    forall r, c :: 0 <= r < 9 && 0 <= c < 9 && g[r][c] != 0 ==> h[r][c] == g[r][c]
  }

  /** h is a complete, conflict-free filling of the puzzle g. */
  predicate IsSolutionOf(h: Board, g: Board) {
    WellFormed(h) && WellFormed(g) && Filled(h) && NoDuplicates(h) && Extends(h, g)
  }

  /** The board with cell (r, c) overwritten by v; all other cells unchanged. */
  function Assign(g: Board, r: int, c: int, v: int): (h: Board)
    requires WellFormed(g) && InRange(r, c) && 0 <= v <= 9
    ensures WellFormed(h)
    ensures h[r][c] == v
    ensures forall r2, c2 :: 0 <= r2 < 9 && 0 <= c2 < 9 && (r2 != r || c2 != c) ==> h[r2][c2] == g[r2][c2]
  {
    g[r := g[r][c := v]]
  }

  /** The set of empty cells. */
  function Zeros(g: Board): set<Cell>
    requires WellFormed(g)
  {
    set r, c | 0 <= r < 9 && 0 <= c < 9 && g[r][c] == 0 :: Cell(r, c)
  }

  /** The number of empty cells: the measure the search decreases. */
  function ZeroCount(g: Board): nat
    requires WellFormed(g)
  {
    |Zeros(g)|
  }

  /** Two boards with the same cells are the same board. */
  lemma SameCells(g: Board, h: Board)
    requires WellFormed(g) && WellFormed(h)
    requires forall r, c :: 0 <= r < 9 && 0 <= c < 9 ==> g[r][c] == h[r][c]
    ensures g == h
  {
    forall r | 0 <= r < 9
      ensures g[r] == h[r]
    {
      assert forall c :: 0 <= c < 9 ==> g[r][c] == h[r][c];
    }
  }

  /** Writing a digit into an empty cell leaves one empty cell fewer. */
  lemma AssignDecreasesZeros(g: Board, r: int, c: int, v: int)
    requires WellFormed(g) && InRange(r, c) && g[r][c] == 0 && 1 <= v <= 9
    ensures ZeroCount(Assign(g, r, c, v)) == ZeroCount(g) - 1
  {
    var h := Assign(g, r, c, v);
    assert Zeros(g) == Zeros(h) + {Cell(r, c)};
    assert Cell(r, c) !in Zeros(h);
  }

  /** Writing 0 back into a cell that was empty restores the board exactly. */
  lemma AssignUndo(g: Board, r: int, c: int, v: int)
    requires WellFormed(g) && InRange(r, c) && g[r][c] == 0 && 0 <= v <= 9
    ensures Assign(Assign(g, r, c, v), r, c, 0) == g
  {
    SameCells(Assign(Assign(g, r, c, v), r, c, 0), g);
  }

  /** Peerhood is symmetric. */
  lemma PeerSymmetric(r: int, c: int, r2: int, c2: int)
    ensures Peer(r, c, r2, c2) <==> Peer(r2, c2, r, c)
  {
  }
}

=== FILE: in_place.dfy ===
/** The solver as the source runs it: one 9x9 array mutated in place, nested
    loops with early returns, and a recursive search that writes a digit and
    writes 0 back on failure. Each method is proved to compute what the
    functional model of the same routine computes. */
module InPlace {
  import opened Wrappers
  import opened Grid
  import opened Consistency
  import opened Selection
  import opened Backtracking
  import opened Gate

  /** A 9x9 array whose cells hold 0..9. */
  predicate Digits(a: array2<int>)
    reads a
  {
    && a.Length0 == 9 && a.Length1 == 9
    && forall r, c :: 0 <= r < 9 && 0 <= c < 9 ==> 0 <= a[r, c] <= 9
  }

  /** The board the array currently holds. */
  function Snapshot(a: array2<int>): (g: Board)
    reads a
    requires a.Length0 == 9 && a.Length1 == 9
    ensures |g| == 9 && forall r :: 0 <= r < 9 ==> |g[r]| == 9
    ensures forall r, c :: 0 <= r < 9 && 0 <= c < 9 ==> g[r][c] == a[r, c]
    ensures Digits(a) ==> WellFormed(g)
  {
    seq(9, r reads a requires 0 <= r < 9 => seq(9, c reads a requires 0 <= c < 9 => a[r, c]))
  }

  /** `select_unassigned_variable` over the array: the row-major scan that
      stops at the first cell holding 0. */
  method SelectUnassignedVariable(a: array2<int>) returns (found: bool, row: int, col: int)
    requires Digits(a)
    ensures found <==> SelectUnassigned(Snapshot(a)).Some?
    ensures found ==> SelectUnassigned(Snapshot(a)) == Some(Cell(row, col))
  {
    ghost var g := Snapshot(a);
    row, col := 0, 0;
    while row < 9
      invariant 0 <= row <= 9
      invariant forall r, c :: 0 <= r < row && 0 <= c < 9 ==> a[r, c] != 0
    {
      col := 0;
      while col < 9
        invariant 0 <= col <= 9
        invariant forall c :: 0 <= c < col ==> a[row, c] != 0
      {
        if a[row, col] == 0 {
          found := true;
          SelectUnassignedIsFirstZero(g, Cell(row, col));
          return;
        }
        col := col + 1;
      }
      row := row + 1;
    }
    found := false;
  }

  /** `is_consistent` over the array: the row, column and block scans in
      turn, answering false as soon as one of them meets `value`. */
  method IsConsistentInPlace(a: array2<int>, row: int, col: int, value: int) returns (ok: bool)
    requires Digits(a) && InRange(row, col)
    ensures ok == IsConsistent(Snapshot(a), row, col, value)
  {
    ok := ScanRow(a, row, col, value);
    if !ok {
      return;
    }
    ok := ScanColumn(a, row, col, value);
    if !ok {
      return;
    }
    ok := ScanBlock(a, row, col, value);
  }

  /** The row scan: false at the first cell of the row, other than the
      target's column, that holds `value`. */
  method ScanRow(a: array2<int>, row: int, col: int, value: int) returns (ok: bool)
    requires Digits(a) && InRange(row, col)
    ensures ok == RowClear(Snapshot(a), row, col, value)
  {
    var c := 0;
    while c < 9
      invariant 0 <= c <= 9
      invariant forall c2 :: 0 <= c2 < c && c2 != col ==> a[row, c2] != value
    {
      if c != col && a[row, c] == value {
        return false;
      }
      c := c + 1;
    }
    return true;
  }

  /** The column scan: false at the first cell of the column, other than the
      target's row, that holds `value`. */
  method ScanColumn(a: array2<int>, row: int, col: int, value: int) returns (ok: bool)
    requires Digits(a) && InRange(row, col)
    ensures ok == ColumnClear(Snapshot(a), row, col, value)
  {
    var r := 0;
    while r < 9
      invariant 0 <= r <= 9
      invariant forall r2 :: 0 <= r2 < r && r2 != row ==> a[r2, col] != value
    {
      if r != row && a[r, col] == value {
        return false;
      }
      r := r + 1;
    }
    return true;
  }

  /** The block scan as written: offsets i, j in 0..2 from the block origin,
      a cell examined only when i differs from the target's row and j from
      its column. */
  method ScanBlock(a: array2<int>, row: int, col: int, value: int) returns (ok: bool)
    requires Digits(a) && InRange(row, col)
    ensures ok == BlockClear(Snapshot(a), row, col, value)
  {
    ghost var g := Snapshot(a);
    var startRow, startCol := row - row % 3, col - col % 3;
    var i := 0;
    while i < 3
      invariant 0 <= i <= 3
      invariant forall i2, j2 :: 0 <= i2 < i && 0 <= j2 < 3 && i2 != row && j2 != col ==>
                  BlockCell(g, row, col, i2, j2) != value
    {
      var j := 0;
      while j < 3
        invariant 0 <= j <= 3
        invariant forall i2, j2 :: 0 <= i2 < i && 0 <= j2 < 3 && i2 != row && j2 != col ==>
                    BlockCell(g, row, col, i2, j2) != value
        invariant forall j2 :: 0 <= j2 < j && i != row && j2 != col ==> BlockCell(g, row, col, i, j2) != value
      {
        if i != row && j != col && a[startRow + i, startCol + j] == value {
          assert BlockCell(g, row, col, i, j) == value;
          return false;
        }
        j := j + 1;
      }
      i := i + 1;
    }
    return true;
  }

  /** `goal_test` over the array: true at the first non-empty cell that
      passes the consistency check with its own digit. */
  method GoalTestInPlace(a: array2<int>) returns (ok: bool)
    requires Digits(a)
    ensures ok == GoalTest(Snapshot(a))
  {
    ghost var g := Snapshot(a);
    var row := 0;
    while row < 9
      invariant 0 <= row <= 9
      invariant forall r, c :: 0 <= r < row && 0 <= c < 9 && g[r][c] != 0 ==> !IsConsistent(g, r, c, g[r][c])
    {
      var col := 0;
      while col < 9
        invariant 0 <= col <= 9
        invariant forall r, c :: 0 <= r < row && 0 <= c < 9 && g[r][c] != 0 ==> !IsConsistent(g, r, c, g[r][c])
        invariant forall c :: 0 <= c < col && g[row][c] != 0 ==> !IsConsistent(g, row, c, g[row][c])
      {
        if a[row, col] != 0 {
          var consistent := IsConsistentInPlace(a, row, col, a[row, col]);
          if consistent {
            return true;
          }
        }
        col := col + 1;
      }
      row := row + 1;
    }
    return false;
  }

  /** An array that agrees cell for cell with a well-formed board holds
      digits and has that board as its snapshot. */
  lemma SnapshotIs(a: array2<int>, h: Board)
    requires a.Length0 == 9 && a.Length1 == 9 && WellFormed(h)
    requires forall r, c :: 0 <= r < 9 && 0 <= c < 9 ==> a[r, c] == h[r][c]
    ensures Digits(a) && Snapshot(a) == h
  {
    SameCells(Snapshot(a), h);
  }

  /** After a write of v at (row, col) into an array that held g, the array
      holds `Assign(g, row, col, v)`. */
  lemma SnapshotAfterWrite(a: array2<int>, g: Board, row: int, col: int, v: int)
    requires a.Length0 == 9 && a.Length1 == 9 && WellFormed(g) && InRange(row, col) && 0 <= v <= 9
    requires a[row, col] == v
    requires forall r, c :: 0 <= r < 9 && 0 <= c < 9 && (r != row || c != col) ==> a[r, c] == g[r][c]
    ensures Digits(a) && Snapshot(a) == Assign(g, row, col, v)
  {
    SnapshotIs(a, Assign(g, row, col, v));
  }

  /** `solve_sudoku` on the array that holds g. It leaves the array holding
      exactly the board the functional search returns: the solution on
      success, and on failure g itself, cell for cell. */
  method SolveInPlace(a: array2<int>, ghost g: Board) returns (solved: bool)
    requires Digits(a) && Snapshot(a) == g
    modifies a
    ensures Digits(a)
    ensures solved == Search(g).solved && Snapshot(a) == Search(g).board
    decreases ZeroCount(g), 2, 0
  {
    var found, row, col := SelectUnassignedVariable(a);
    if !found {
      return true;
    }
    solved := TryValuesInPlace(a, g, row, col, 0);
  }

  /** The loop over `order_domain_values()` at the selected cell (row, col),
      from the i-th candidate on: a candidate that passes the check is handed
      to `WriteAndRecurse`; the first success ends the loop. */
  method TryValuesInPlace(a: array2<int>, ghost g: Board, row: int, col: int, i: int) returns (solved: bool)
    requires Digits(a) && Snapshot(a) == g && InRange(row, col) && g[row][col] == 0 && 0 <= i <= 9
    modifies a
    ensures Digits(a)
    ensures solved == TryValues(g, Cell(row, col), i).solved && Snapshot(a) == TryValues(g, Cell(row, col), i).board
    decreases ZeroCount(g), 1, 9 - i
  {
    if i == 9 {
      return false;
    }
    var value := OrderDomainValues()[i];
    DomainValueAt(i);
    TryValuesStep(g, Cell(row, col), i);
    var consistent := IsConsistentInPlace(a, row, col, value);
    if consistent {
      solved := WriteAndRecurse(a, g, row, col, value);
      if solved {
        return;
      }
    }
    solved := TryValuesInPlace(a, g, row, col, i + 1);
  }

  /** Write `value` at the empty cell, recurse, and on failure write 0 back:
      the array ends either solved or holding g again. */
  method WriteAndRecurse(a: array2<int>, ghost g: Board, row: int, col: int, value: int) returns (solved: bool)
    requires Digits(a) && Snapshot(a) == g && InRange(row, col) && g[row][col] == 0 && 1 <= value <= 9
    modifies a
    ensures Digits(a)
    ensures solved == Search(Assign(g, row, col, value)).solved
    ensures solved ==> Snapshot(a) == Search(Assign(g, row, col, value)).board
    ensures !solved ==> Snapshot(a) == g
    decreases ZeroCount(g), 0, 0
  {
    ghost var written := Assign(g, row, col, value);
    AssignDecreasesZeros(g, row, col, value);
    a[row, col] := value;
    SnapshotAfterWrite(a, g, row, col, value);
    solved := SolveInPlace(a, written);
    if !solved {
      a[row, col] := 0;
      SnapshotAfterWrite(a, written, row, col, 0);
      AssignUndo(g, row, col, value);
    }
  }

  /** The decision in `main`: run the search only when `goal_test` passes.
      On "no solution" the array is left as it was given. */
  method MainInPlace(a: array2<int>) returns (solved: bool)
    requires Digits(a)
    modifies a
    ensures Digits(a)
    ensures solved <==> Main(old(Snapshot(a))).Some?
    ensures solved ==> Snapshot(a) == Main(old(Snapshot(a))).value
    ensures !solved ==> Snapshot(a) == old(Snapshot(a))
  {
    var passes := GoalTestInPlace(a);
    if !passes {
      return false;
    }
    solved := SolveInPlace(a, Snapshot(a));
  }
}

=== FILE: scenarios.dfy ===
/** Concrete boards: a solved pattern, the empty puzzle, a puzzle with a
    repeated digit in its first row, a lone 5 checked against itself, and
    the boards that show where `goal_test` and the block scan depart from
    their evident intent. */
module Scenarios {
  import opened Wrappers
  import opened Grid
  import opened Consistency
  import opened Selection
  import opened Backtracking
  import opened Gate

  /** The digit of the pattern at (r, c): row r is the sequence 1..9 rotated
      left by 3 * (r % 3) + r / 3. */
  function PatternDigit(r: int, c: int): int
    requires InRange(r, c)
  {
    (3 * (r % 3) + r / 3 + c) % 9 + 1
  }

  /** A complete board without duplicates. */
  function Pattern(): (g: Board)
    ensures WellFormed(g)
    ensures forall r, c :: 0 <= r < 9 && 0 <= c < 9 ==> g[r][c] == PatternDigit(r, c)
  {
    seq(9, r requires 0 <= r < 9 => seq(9, c requires 0 <= c < 9 => PatternDigit(r, c)))
  }

  /** Two distinct naturals less than 9 apart leave different remainders mod 9. */
  lemma RemaindersDiffer(x: int, y: int)
    requires 0 <= x && 0 <= y && x != y && -9 < x - y < 9
    ensures x % 9 != y % 9
  {
    assert x == 9 * (x / 9) + x % 9 && y == 9 * (y / 9) + y % 9;
  }

  /** Two peers of the pattern never hold the same digit. */
  lemma PatternPeersDiffer(r: int, c: int, r2: int, c2: int)
    requires InRange(r, c) && InRange(r2, c2) && Peer(r, c, r2, c2)
    ensures PatternDigit(r, c) != PatternDigit(r2, c2)
  {
    var a, b, a2, b2 := r % 3, r / 3, r2 % 3, r2 / 3;
    assert r == 3 * b + a && r2 == 3 * b2 + a2;
    assert 0 <= a < 3 && 0 <= b < 3 && 0 <= a2 < 3 && 0 <= b2 < 3;
    var x, y := 3 * a + b + c, 3 * a2 + b2 + c2;
    if r == r2 {
      assert x - y == c - c2;
    } else if c == c2 {
      assert x - y == 3 * (a - a2) + (b - b2);
      assert a != a2 || b != b2;
    } else {
      assert b == b2 && c / 3 == c2 / 3;
      assert -2 <= c - c2 <= 2 && a != a2;
      assert x - y == 3 * (a - a2) + (c - c2);
    }
    RemaindersDiffer(x, y);
  }

  lemma PatternIsSolved()
    ensures Filled(Pattern()) && NoDuplicates(Pattern())
  {
    var g := Pattern();
    forall r, c | 0 <= r < 9 && 0 <= c < 9 && g[r][c] != 0
      ensures NoPeerHolds(g, r, c, g[r][c])
    {
      forall r2, c2 | 0 <= r2 < 9 && 0 <= c2 < 9 && Peer(r, c, r2, c2)
        ensures g[r2][c2] != g[r][c]
      {
        PatternPeersDiffer(r, c, r2, c2);
      }
    }
  }

  /** The puzzle with all 81 cells empty. */
  function EmptyBoard(): (g: Board)
    ensures WellFormed(g)
    ensures forall r, c :: 0 <= r < 9 && 0 <= c < 9 ==> g[r][c] == 0
  {
    seq(9, r => seq(9, c => 0))
  }

  /** The pattern solves the empty puzzle, and also the puzzle whose only
      given is the 1 the search writes first. */
  lemma PatternSolvesEmptyBoard()
    ensures IsSolutionOf(Pattern(), EmptyBoard())
    ensures IsSolutionOf(Pattern(), Assign(EmptyBoard(), 0, 0, 1))
  {
    PatternIsSolved();
    assert Pattern()[0][0] == 1;
  }

  /** The empty puzzle is solved by the search, and the first cell receives
      the smallest digit, 1. `main` itself reports no solution for it,
      because `goal_test` finds no given cell. */
  lemma EmptyBoardSolvedWithOneFirst()
    ensures Search(EmptyBoard()).solved
    ensures Search(EmptyBoard()).board[0][0] == 1
    ensures Solve(EmptyBoard()).Some?
    ensures Main(EmptyBoard()).None?
  {
    var g, s := EmptyBoard(), Pattern();
    PatternSolvesEmptyBoard();
    SearchComplete(g, s);
    SelectUnassignedIsFirstZero(g, Cell(0, 0));
    assert IsConsistent(g, 0, 0, 1);
    var written := Assign(g, 0, 0, 1);
    AssignDecreasesZeros(g, 0, 0, 1);
    SearchComplete(written, s);
    SearchFillsKeepingGivens(written);
    TryValuesStep(g, Cell(0, 0), 0);
    GoalTestEmptyBoard(g);
  }

  /** The puzzle whose only givens are two 5s side by side in the first row. */
  function TwoFivesInARow(): (g: Board)
    ensures WellFormed(g)
  {
    seq(9, r => seq(9, c => if r == 0 && c < 2 then 5 else 0))
  }

  /** Both the pre-check as written and the corrected entry point report no
      solution for it. */
  lemma TwoFivesHaveNoSolution()
    ensures Main(TwoFivesInARow()).None?
    ensures Solve(TwoFivesInARow()).None?
  {
    var g := TwoFivesInARow();
    assert Peer(0, 0, 0, 1) && Peer(0, 1, 0, 0);
    GoalTestAllClash(g);
    assert !NoDuplicates(g) by {
      assert !NoPeerHolds(g, 0, 0, 5);
    }
    DuplicateGivensHaveNoSolution(g);
  }

  /** The pattern with its last cell overwritten by the digit to its left,
      so that row 8 holds that digit twice. */
  function PatternWithRepeat(): (g: Board)
    ensures WellFormed(g)
  {
    Assign(Pattern(), 8, 8, PatternDigit(8, 7))
  }

  /** The pattern with a repeat holds the digit of (8, 7) twice in row 8, yet
      cell (0, 0) passes the check with its own digit, and no cell is empty. */
  lemma PatternWithRepeatFacts()
    ensures !NoDuplicates(PatternWithRepeat())
    ensures IsConsistent(PatternWithRepeat(), 0, 0, PatternWithRepeat()[0][0])
    ensures Filled(PatternWithRepeat())
  {
    var g, s := PatternWithRepeat(), Pattern();
    PatternIsSolved();
    assert g[8][7] == g[8][8];
    assert !NoPeerHolds(g, 8, 8, g[8][8]) by {
      assert Peer(8, 8, 8, 7);
    }
    assert NoPeerHolds(g, 0, 0, g[0][0]) by {
      assert NoPeerHolds(s, 0, 0, s[0][0]);
    }
    IsConsistentIff(g, 0, 0, g[0][0]);
  }

  /** `goal_test` lets a full board with a repeated digit through, and `main`
      reports that board as the solution. The corrected entry point rejects
      it. */
  lemma GoalTestAdmitsRepeat()
    ensures !NoDuplicates(PatternWithRepeat())
    ensures GoalTest(PatternWithRepeat())
    ensures Main(PatternWithRepeat()) == Some(PatternWithRepeat())
    ensures Solve(PatternWithRepeat()).None?
  {
    var g := PatternWithRepeat();
    PatternWithRepeatFacts();
    assert g[0][0] != 0;
    SearchFilled(g);
    DuplicateGivensHaveNoSolution(g);
  }

  /** The puzzle whose only given is a 9 at (4, 4): the digit the pattern has there. */
  function LoneNine(): (g: Board)
    ensures WellFormed(g)
  {
    seq(9, r => seq(9, c => if r == 4 && c == 4 then 9 else 0))
  }

  /** Through the block scan's self-comparison, `main` reports no solution for
      a solvable puzzle whose givens all lie in rows 3..8 and columns 3..8;
      the corrected entry point solves it. */
  lemma GoalTestRejectsSolvable()
    ensures IsSolutionOf(Pattern(), LoneNine())
    ensures !GoalTest(LoneNine())
    ensures Main(LoneNine()).None?
    ensures Solve(LoneNine()).Some?
  {
    var g, s := LoneNine(), Pattern();
    PatternIsSolved();
    assert s[4][4] == 9;
    assert Extends(s, g);
    assert IsSolutionOf(s, g);
    assert !GoalTest(g) by {
      forall r, c | 0 <= r < 9 && 0 <= c < 9 && g[r][c] != 0 ensures r >= 3 && c >= 3 {
      }
      GoalTestIff(g);
    }
  }

  /** The board whose only digit is a 5 at row 4, column 4. */
  function LoneFive(): (g: Board)
    ensures WellFormed(g)
  {
    seq(9, r => seq(9, c => if r == 4 && c == 4 then 5 else 0))
  }

  /** The block scan as written reports the lone 5 at (4, 4) as clashing,
      although no other cell holds a 5; the corrected check accepts it. */
  lemma BlockScanSelfCompare()
    ensures NoPeerHolds(LoneFive(), 4, 4, 5)
    ensures !IsConsistent(LoneFive(), 4, 4, 5)
    ensures IsConsistentFixed(LoneFive(), 4, 4, 5)
  {
    var g := LoneFive();
    assert BlockCell(g, 4, 4, 1, 1) == 5;
    IsConsistentFixedIff(g, 4, 4, 5);
  }
}

=== FILE: search.dfy ===
/** The backtracking search `solve_sudoku`. The source mutates one board in
    place; here the board is threaded through the calls: each call receives
    the board as it stands and hands back the board as it leaves it, together
    with whether the search succeeded (the source returns the board itself on
    success and the string "FAILURE" otherwise). */
module Backtracking {
  import opened Wrappers
  import opened Grid
  import opened Consistency
  import opened Selection

  /** What a call leaves behind: success or failure, and the board. */
  datatype Outcome = Outcome(solved: bool, board: Board)

  /** Every cell that was empty in g holds, in h, a digit no peer of it
      holds: the digits the search writes never clash in the final board. */
  predicate WrittenCellsClear(g: Board, h: Board)
    requires WellFormed(g) && WellFormed(h)
  {
    forall r, c :: 0 <= r < 9 && 0 <= c < 9 && g[r][c] == 0 ==> NoPeerHolds(h, r, c, h[r][c])
  }

  /** `solve_sudoku`: pick the first empty cell; if there is none the board is
      returned as solved, otherwise the digits are tried at that cell. On
      failure the board comes back exactly as it went in. */
  function Search(g: Board): (res: Outcome)
    requires WellFormed(g)
    ensures WellFormed(res.board)
    ensures !res.solved ==> res.board == g
    decreases ZeroCount(g), 10
  {
    match SelectUnassigned(g)
    case None => Outcome(true, g)
    case Some(p) => TryValues(g, p, 0)
  }

  /** The loop over `order_domain_values()` at the selected empty cell p,
      from the i-th candidate on: a candidate that passes the consistency
      check is written, the search recurses, and on failure the cell is set
      back to 0 before the next candidate. */
  function TryValues(g: Board, p: Cell, i: int): (res: Outcome)
    requires WellFormed(g) && InRange(p.row, p.col) && g[p.row][p.col] == 0 && 0 <= i <= 9
    ensures WellFormed(res.board)
    ensures !res.solved ==> res.board == g
    decreases ZeroCount(g), 9 - i
  {
    if i == 9 then Outcome(false, g)
    else
      var v := OrderDomainValues()[i];
      if IsConsistent(g, p.row, p.col, v) then
        var written := Assign(g, p.row, p.col, v);
        AssignDecreasesZeros(g, p.row, p.col, v);
        var child := Search(written);
        if child.solved then child
        else
          var restored := Assign(child.board, p.row, p.col, 0);
          AssignUndo(g, p.row, p.col, v);
          TryValues(restored, p, i + 1)
      else TryValues(g, p, i + 1)
  }

  /** One iteration of the candidate loop: the i-th candidate i + 1 ends the
      loop exactly when it passes the check and the recursive search
      succeeds; otherwise, the write being undone exactly, the loop goes on
      from the same board. */
  lemma TryValuesStep(g: Board, p: Cell, i: int)
    requires WellFormed(g) && InRange(p.row, p.col) && g[p.row][p.col] == 0 && 0 <= i < 9
    ensures TryValues(g, p, i) ==
              if IsConsistent(g, p.row, p.col, i + 1) && Search(Assign(g, p.row, p.col, i + 1)).solved
              then Search(Assign(g, p.row, p.col, i + 1))
              else TryValues(g, p, i + 1)
  {
    DomainValueAt(i);
    if IsConsistent(g, p.row, p.col, i + 1) {
      AssignUndo(g, p.row, p.col, i + 1);
    }
  }

  /** A successful search leaves no empty cell and keeps every given digit. */
  lemma {:induction false} SearchFillsKeepingGivens(g: Board)
    requires WellFormed(g)
    ensures Search(g).solved ==> Filled(Search(g).board) && Extends(Search(g).board, g)
    decreases ZeroCount(g), 10
  {
    match SelectUnassigned(g)
    case None =>
    case Some(p) => TryValuesFillsKeepingGivens(g, p, 0);
  }

  lemma {:induction false} TryValuesFillsKeepingGivens(g: Board, p: Cell, i: int)
    requires WellFormed(g) && InRange(p.row, p.col) && g[p.row][p.col] == 0 && 0 <= i <= 9
    ensures TryValues(g, p, i).solved ==>
              Filled(TryValues(g, p, i).board) && Extends(TryValues(g, p, i).board, g)
    decreases ZeroCount(g), 9 - i
  {
    if i < 9 {
      var v := OrderDomainValues()[i];
      if IsConsistent(g, p.row, p.col, v) {
        var written := Assign(g, p.row, p.col, v);
        AssignDecreasesZeros(g, p.row, p.col, v);
        if Search(written).solved {
          SearchFillsKeepingGivens(written);
        } else {
          AssignUndo(g, p.row, p.col, v);
          TryValuesFillsKeepingGivens(g, p, i + 1);
        }
      } else {
        TryValuesFillsKeepingGivens(g, p, i + 1);
      }
    }
  }

  /** A board with no empty cell is returned unchanged as solved. */
  lemma SearchFilled(g: Board)
    requires WellFormed(g) && Filled(g)
    ensures Search(g) == Outcome(true, g)
  {
  }

  /** On a board with an empty cell the search leaves the cells before the
      first empty cell (row-major) as they were, whatever the outcome. */
  lemma SearchKeepsScannedPrefix(g: Board)
    requires WellFormed(g) && !Filled(g)
    ensures var p := SelectUnassigned(g).value;
            forall r, c :: 0 <= r < 9 && 0 <= c < 9 && Before(Cell(r, c), p) ==>
              Search(g).board[r][c] == g[r][c]
  {
    SearchFillsKeepingGivens(g);
  }

  /** A digit written at an empty cell that passed the check does not clash,
      and no later write makes it clash: in a successful result every cell
      that was empty on entry holds a digit no peer holds. */
  lemma {:induction false} SearchWritesClearDigits(g: Board)
    requires WellFormed(g)
    ensures Search(g).solved ==> WrittenCellsClear(g, Search(g).board)
    decreases ZeroCount(g), 10
  {
    match SelectUnassigned(g)
    case None =>
    case Some(p) => TryValuesWritesClearDigits(g, p, 0);
  }

  lemma {:induction false} TryValuesWritesClearDigits(g: Board, p: Cell, i: int)
    requires WellFormed(g) && InRange(p.row, p.col) && g[p.row][p.col] == 0 && 0 <= i <= 9
    ensures TryValues(g, p, i).solved ==> WrittenCellsClear(g, TryValues(g, p, i).board)
    decreases ZeroCount(g), 9 - i
  {
    if i < 9 {
      var v := OrderDomainValues()[i];
      DomainValueAt(i);
      if IsConsistent(g, p.row, p.col, v) {
        var written := Assign(g, p.row, p.col, v);
        AssignDecreasesZeros(g, p.row, p.col, v);
        var child := Search(written);
        if child.solved {
          SearchWritesClearDigits(written);
          SearchFillsKeepingGivens(written);
          ConsistentAtEmptyCell(g, p.row, p.col, v);
          WriteKeepsClear(g, p, v, child.board);
        } else {
          AssignUndo(g, p.row, p.col, v);
          TryValuesWritesClearDigits(g, p, i + 1);
        }
      } else {
        TryValuesWritesClearDigits(g, p, i + 1);
      }
    }
  }

  /** One step of the argument above: h fills `Assign(g, p, v)` without
      clashes at its empty cells, and v clashed with no peer in g; then h
      fills g without clashes at its empty cells, p included. */
  lemma WriteKeepsClear(g: Board, p: Cell, v: int, h: Board)
    requires WellFormed(g) && WellFormed(h) && InRange(p.row, p.col)
    requires g[p.row][p.col] == 0 && 1 <= v <= 9
    requires NoPeerHolds(g, p.row, p.col, v)
    requires Extends(h, Assign(g, p.row, p.col, v))
    requires WrittenCellsClear(Assign(g, p.row, p.col, v), h)
    ensures WrittenCellsClear(g, h)
  {
    var written := Assign(g, p.row, p.col, v);
    assert h[p.row][p.col] == v;
    forall r2, c2 | 0 <= r2 < 9 && 0 <= c2 < 9 && Peer(p.row, p.col, r2, c2)
      ensures h[r2][c2] != v
    {
      if g[r2][c2] != 0 {
        assert h[r2][c2] == g[r2][c2];
      } else {
        PeerSymmetric(p.row, p.col, r2, c2);
        assert written[r2][c2] == 0;
        assert NoPeerHolds(h, r2, c2, h[r2][c2]);
      }
    }
  }

  /** Given cells without duplicates and written cells without clashes make
      a board without duplicates. */
  lemma ClearFillingHasNoDuplicates(g: Board, h: Board)
    requires WellFormed(g) && WellFormed(h)
    requires NoDuplicates(g) && Extends(h, g) && WrittenCellsClear(g, h)
    ensures NoDuplicates(h)
  {
    forall r, c | 0 <= r < 9 && 0 <= c < 9 && h[r][c] != 0
      ensures NoPeerHolds(h, r, c, h[r][c])
    {
      if g[r][c] != 0 {
        forall r2, c2 | 0 <= r2 < 9 && 0 <= c2 < 9 && Peer(r, c, r2, c2)
          ensures h[r2][c2] != h[r][c]
        {
          if g[r2][c2] == 0 {
            PeerSymmetric(r, c, r2, c2);
            assert NoPeerHolds(h, r2, c2, h[r2][c2]);
          }
        }
      }
    }
  }

  /** When the given cells have no duplicate, a successful search returns a
      solution of the puzzle. */
  lemma SearchSound(g: Board)
    requires WellFormed(g) && NoDuplicates(g)
    ensures Search(g).solved ==> IsSolutionOf(Search(g).board, g)
  {
    SearchWritesClearDigits(g);
    SearchFillsKeepingGivens(g);
    if Search(g).solved {
      ClearFillingHasNoDuplicates(g, Search(g).board);
    }
  }

  /** If the puzzle has a solution, the search succeeds: "FAILURE" means that
      no solution exists. */
  lemma {:induction false} SearchComplete(g: Board, s: Board)
    requires WellFormed(g) && IsSolutionOf(s, g)
    ensures Search(g).solved
    decreases ZeroCount(g), 10
  {
    match SelectUnassigned(g)
    case None =>
    case Some(p) =>
      assert 1 <= s[p.row][p.col] <= 9;
      TryValuesComplete(g, p, 0, s);
  }

  lemma {:induction false} TryValuesComplete(g: Board, p: Cell, i: int, s: Board)
    requires WellFormed(g) && InRange(p.row, p.col) && g[p.row][p.col] == 0 && 0 <= i <= 9
    requires IsSolutionOf(s, g) && i < s[p.row][p.col]
    ensures TryValues(g, p, i).solved
    decreases ZeroCount(g), 9 - i
  {
    var v := OrderDomainValues()[i];
    DomainValueAt(i);
    var target := s[p.row][p.col];
    if v == target {
      assert NoPeerHolds(g, p.row, p.col, v) by {
        forall r2, c2 | 0 <= r2 < 9 && 0 <= c2 < 9 && Peer(p.row, p.col, r2, c2)
          ensures g[r2][c2] != v
        {
          assert NoPeerHolds(s, p.row, p.col, s[p.row][p.col]);
        }
      }
      ConsistentAtEmptyCell(g, p.row, p.col, v);
      var written := Assign(g, p.row, p.col, v);
      AssignDecreasesZeros(g, p.row, p.col, v);
      assert IsSolutionOf(s, written);
      SearchComplete(written, s);
    } else if IsConsistent(g, p.row, p.col, v) {
      var written := Assign(g, p.row, p.col, v);
      AssignDecreasesZeros(g, p.row, p.col, v);
      if !Search(written).solved {
        AssignUndo(g, p.row, p.col, v);
        TryValuesComplete(g, p, i + 1, s);
      }
    } else {
      TryValuesComplete(g, p, i + 1, s);
    }
  }

  /** A board whose only empty cell p admits exactly one digit d is solved by
      writing d at p. */
  lemma OneEmptyCell(g: Board, p: Cell, d: int)
    requires WellFormed(g) && InRange(p.row, p.col) && Zeros(g) == {p}
    requires 1 <= d <= 9 && NoPeerHolds(g, p.row, p.col, d)
    requires forall v :: 1 <= v <= 9 && v != d ==> !NoPeerHolds(g, p.row, p.col, v)
    ensures Search(g) == Outcome(true, Assign(g, p.row, p.col, d))
  {
    assert g[p.row][p.col] == 0 by { assert p in Zeros(g); }
    assert SelectUnassigned(g) == Some(p) by {
      var q := SelectUnassigned(g).value;
      assert q in Zeros(g);
    }
    OneEmptyCellTry(g, p, d, 0);
  }

  lemma {:induction false} OneEmptyCellTry(g: Board, p: Cell, d: int, i: int)
    requires WellFormed(g) && InRange(p.row, p.col) && Zeros(g) == {p} && g[p.row][p.col] == 0
    requires 1 <= d <= 9 && NoPeerHolds(g, p.row, p.col, d)
    requires forall v :: 1 <= v <= 9 && v != d ==> !NoPeerHolds(g, p.row, p.col, v)
    requires 0 <= i < d
    ensures TryValues(g, p, i) == Outcome(true, Assign(g, p.row, p.col, d))
    decreases 9 - i
  {
    var v := OrderDomainValues()[i];
    DomainValueAt(i);
    ConsistentAtEmptyCell(g, p.row, p.col, v);
    if v == d {
      var written := Assign(g, p.row, p.col, d);
      forall r, c | 0 <= r < 9 && 0 <= c < 9 ensures written[r][c] != 0 {
        if r != p.row || c != p.col {
          assert Cell(r, c) !in Zeros(g);
        }
      }
      SearchFilled(written);
    } else {
      OneEmptyCellTry(g, p, d, i + 1);
    }
  }
}

=== FILE: selection.dfy ===
/** Variable and value ordering of the search: `select_unassigned_variable`
    (first empty cell in row-major order) and `order_domain_values` (the
    digits in ascending order). */
module Selection {
  import opened Wrappers
  import opened Grid

  /** Cell x is scanned no earlier than `from` and strictly before `to`. */
  predicate Between(x: Cell, from: Cell, to: Cell) {
    !Before(x, from) && Before(x, to)
  }

  /** The row-major scan from (row, col) onward: the rest of row `row`, then
      every later row from column 0. */
  function SelectFrom(g: Board, row: int, col: int): (p: Option<Cell>)
    requires WellFormed(g) && 0 <= row <= 9 && 0 <= col <= 9
    ensures p.Some? ==>
              && InRange(p.value.row, p.value.col)
              && g[p.value.row][p.value.col] == 0
              && !Before(p.value, Cell(row, col))
              && forall r, c :: 0 <= r < 9 && 0 <= c < 9 && Between(Cell(r, c), Cell(row, col), p.value) ==>
                                  g[r][c] != 0
    ensures p.None? ==>
              forall r, c :: 0 <= r < 9 && 0 <= c < 9 && !Before(Cell(r, c), Cell(row, col)) ==> g[r][c] != 0
    decreases 9 - row, 9 - col
  {
    if row == 9 then None
    else if col == 9 then SelectFrom(g, row + 1, 0)
    else if g[row][col] == 0 then Some(Cell(row, col))
    else SelectFrom(g, row, col + 1)
  }

  /** `select_unassigned_variable`: the first empty cell in row-major order,
      or None exactly when the board has no empty cell. */
  function SelectUnassigned(g: Board): (p: Option<Cell>)
    requires WellFormed(g)
    ensures p.Some? ==>
              && InRange(p.value.row, p.value.col)
              && g[p.value.row][p.value.col] == 0
              && forall r, c :: 0 <= r < 9 && 0 <= c < 9 && Before(Cell(r, c), p.value) ==> g[r][c] != 0
    ensures p.None? <==> Filled(g)
  {
    SelectFrom(g, 0, 0)
  }

  /** The selector's answer is characterised by the board alone: it is p
      exactly when p is empty and every cell scanned before p holds a digit. */
  lemma SelectUnassignedIsFirstZero(g: Board, p: Cell)
    requires WellFormed(g)
    ensures SelectUnassigned(g) == Some(p) <==>
              && InRange(p.row, p.col)
              && g[p.row][p.col] == 0
              && forall r, c :: 0 <= r < 9 && 0 <= c < 9 && Before(Cell(r, c), p) ==> g[r][c] != 0
  {
    if InRange(p.row, p.col) && g[p.row][p.col] == 0
       && forall r, c :: 0 <= r < 9 && 0 <= c < 9 && Before(Cell(r, c), p) ==> g[r][c] != 0 {
      var q := SelectUnassigned(g).value;
      assert !Before(p, q) && !Before(q, p);
    }
  }

  /** `order_domain_values`: each digit 1..9 once, in ascending order. */
  function OrderDomainValues(): (vs: seq<int>)
    ensures |vs| == 9
    ensures forall i, j :: 0 <= i < j < |vs| ==> vs[i] < vs[j]
    ensures forall v :: v in vs <==> 1 <= v <= 9
  {
    [1, 2, 3, 4, 5, 6, 7, 8, 9]
  }

  /** The i-th candidate tried is the digit i + 1. */
  lemma DomainValueAt(i: int)
    requires 0 <= i < 9
    ensures OrderDomainValues()[i] == i + 1
  {
    assert i == 0 || i == 1 || i == 2 || i == 3 || i == 4 || i == 5 || i == 6 || i == 7 || i == 8;
  }
}

=== FILE: wrappers.dfy ===
/** A value that may be absent: the selector's "no empty cell left" and the
    solver's "no solution" answers. */
module Wrappers {
  datatype Option<+T> = None | Some(value: T)
}
